=== FILE: README.md ===
# Vintage Retro client: parallax engine, menu filter and contact form

The Vintage Retro site is a brochure site for a cafe. Three parts of its client carry sequential logic, and this project models them in Dafny.

- **Parallax background** (`ParallaxBackground.tsx`). The component keeps a scroll-derived scale, a hover-derived scale, the last pointer position and a `ticking` flag. Four event steps change that state: the scroll handler, the frame-throttled scroll listener, pointer move and pointer leave. The renderer reads two outputs from it, the final scale and the rotation pair. Modules `Parallax` (`parallax.dfy`) and `ParallaxTraces` (`parallax_traces.dfy`).
- **Menu filter** (`Portfolio.tsx`). A fixed list of six items and four filter buttons. The items shown are the ones in the active category, or all of them for `"all"`. A grid/list toggle sits beside the filter and does not affect it. Module `Portfolio` (`portfolio.dfy`).
- **Contact form** (`Contact.tsx`). Six text fields, a simulated two-second submission, a confirmation card, and "Send Another Message". Module `Contact` (`contact.dfy`).

Numbers are `real`. Browser inputs are parameters or event steps:

- `getBoundingClientRect` and `window.innerHeight` arrive as a `ScrollGeometry` or a `Rect`.
- A detached ref (`containerRef.current` null) is `None`.
- `requestAnimationFrame` is a frame event. The queue of requested callbacks is the `pendingFrames` count.
- `setTimeout` is a completion step, counted by `pendingTimers`.
- `Math.sqrt` is a function parameter. It is constrained only to be non-negative on non-negative input.

The component has no guard against zero-size geometry. The model therefore requires the denominators it divides by to be positive.

## Model

| member | source | states |
|---|---|---|
| Parallax.DefaultConfig | apps/client/src/components/ParallaxBackground.tsx:19-25 | the default props: mode "both", rotation on, and min < base < max with a positive zoom factor |
| Parallax.Init | apps/client/src/components/ParallaxBackground.tsx:27-29 | both scales start at the base scale, the pointer at the centre (0.5, 0.5), with no frame pending |
| Parallax.Clamp | apps/client/src/components/ParallaxBackground.tsx:45 | `max(lo, min(hi, v))` is at least lo and at most hi when lo ≤ hi; it is lo when the bounds are inverted; it leaves an in-range value alone |
| Parallax.ClampMonotone | apps/client/src/components/ParallaxBackground.tsx:45 | clamping preserves order |
| Parallax.ScrollProgress | apps/client/src/components/ParallaxBackground.tsx:40-42 | scroll progress always lies in [0, 1] |
| Parallax.ScrollProgressEnds | apps/client/src/components/ParallaxBackground.tsx:40-42 | progress is 0 while the container's top is at or below the viewport bottom, and 1 once its bottom edge is at or above the viewport top |
| Parallax.ProgressInterior | apps/client/src/components/ParallaxBackground.tsx:40-42 | between the two ends, progress times the whole travel (viewport height plus container height) gives back how far the container's top has risen above the fold, so the zoom grows gradually rather than jumping |
| Parallax.ScrollProgressMonotone | apps/client/src/components/ParallaxBackground.tsx:40-42 | as the container moves up the viewport, progress never decreases |
| Parallax.ZeroHeightAtTopIsFullProgress | apps/client/src/components/ParallaxBackground.tsx:40-42 | a zero-height container at top 0 in a non-empty viewport gives progress 1, with no division by zero |
| Parallax.ScrollZoom | apps/client/src/components/ParallaxBackground.tsx:44-45 | the scroll scale is ≥ minScale; it is ≤ maxScale when min ≤ max; it equals minScale when the bounds are inverted; inside the bounds it is base + progress·zoomRange·sensitivity |
| Parallax.ScrollZoomMonotone | apps/client/src/components/ParallaxBackground.tsx:44-45 | with a non-negative zoom factor, more progress never gives a smaller scroll scale |
| Parallax.HandleScroll | apps/client/src/components/ParallaxBackground.tsx:33-48 | a detached container changes nothing; otherwise only scrollScale changes, to the clamped zoom of the current geometry |
| Parallax.Mount | apps/client/src/components/ParallaxBackground.tsx:27-62 | after mounting and the first direct scroll read, the pointer state is initial, no frame is pending, and the scroll scale is the clamped zoom of the scroll progress read from the geometry (the base scale when the container is detached) |
| Parallax.ScrollDispatch | apps/client/src/components/ParallaxBackground.tsx:51-59 | while ticking, a scroll event changes nothing and schedules no frame; otherwise it schedules exactly one frame and sets ticking; scales and pointer are untouched |
| Parallax.FrameFires | apps/client/src/components/ParallaxBackground.tsx:53-56 | a frame callback runs the scroll handler once, then clears ticking and removes itself from the queue; with nothing pending nothing runs |
| Parallax.ScrollDispatchKeepsThrottleInv | apps/client/src/components/ParallaxBackground.tsx:50-59 | a scroll event keeps "ticking iff exactly one frame pending, never more than one" and leaves one frame pending |
| Parallax.FrameFiresKeepsThrottleInv | apps/client/src/components/ParallaxBackground.tsx:53-56 | a frame keeps the throttle invariant and leaves none pending |
| Parallax.ScrollBurst | apps/client/src/components/ParallaxBackground.tsx:50-59 | any n ≥ 1 scroll events in one frame interval queue exactly one frame callback, so the scroll handler (and its geometry read) runs once, leaving the scale of the frame-time geometry and no frame pending |
| Parallax.Normalise | apps/client/src/components/ParallaxBackground.tsx:72-73 | the normalised point maps back to the client coordinates; each coordinate lies in [0,1] if and only if the pointer lies within the rectangle on that axis, so a pointer outside gives a point outside the unit square (no clamp) |
| Parallax.DistanceFromCentre | apps/client/src/components/ParallaxBackground.tsx:76-78 | the distance from the centre is non-negative, and for a `sqrt` that squares back its square is (x − 0.5)² + (y − 0.5)², so it depends on both coordinates |
| Parallax.RawHoverZoom | apps/client/src/components/ParallaxBackground.tsx:79 | the unclamped hover zoom never exceeds base + 0.15 |
| Parallax.HoverZoom | apps/client/src/components/ParallaxBackground.tsx:79-80 | the hover scale is within [minScale, maxScale] (when min ≤ max) for every point, including points outside the unit square |
| Parallax.HoverZoomGivesDistance | apps/client/src/components/ParallaxBackground.tsx:76-79 | for a `sqrt` that squares back, the hover zoom's shortfall from base + 0.15, divided by 0.15, is the pointer's Euclidean distance from (0.5, 0.5): non-negative, with square (x − 0.5)² + (y − 0.5)² |
| Parallax.HoverZoomCloserIsLarger | apps/client/src/components/ParallaxBackground.tsx:76-80 | a pointer no farther from the centre than another gets at least as much hover zoom, both raw and clamped |
| Parallax.HoverZoomPeakAtCentre | apps/client/src/components/ParallaxBackground.tsx:76-79 | the raw hover zoom reaches base + 0.15 exactly at zero distance from the centre, and a strictly farther pointer gets strictly less |
| Parallax.PointerMove | apps/client/src/components/ParallaxBackground.tsx:69-82 | outside hover/both mode, or with no container, nothing changes; otherwise the normalised position and its clamped hover scale are stored; the scroll and throttle state are never touched |
| Parallax.ScrollModeIgnoresPointer | apps/client/src/components/ParallaxBackground.tsx:70 | in "scroll" mode a pointer move leaves the state, and so the final scale, exactly as they were |
| Parallax.PointerLeave | apps/client/src/components/ParallaxBackground.tsx:84-87 | leaving restores exactly the initial hover scale and pointer position, and nothing else changes |
| Parallax.LeaveDiffersFromCentreMove | apps/client/src/components/ParallaxBackground.tsx:79-87 | a move to the centre gives min(max, base + 0.15), which differs from the base scale that leaving restores whenever base < max |
| Parallax.FinalScale | apps/client/src/components/ParallaxBackground.tsx:89-96 | "scroll" shows the scroll scale and "hover" the hover scale; "both" stays within bounds and, whenever the blend scroll + 0.3·(hover − base) is already within the bounds, equals that blend; any other mode shows the base scale |
| Parallax.BlendMonotoneInHover | apps/client/src/components/ParallaxBackground.tsx:92-94 | in "both" mode a larger hover scale never gives a smaller final scale, and inside the bounds it raises it by 0.3 times the difference |
| Parallax.BlendExample | apps/client/src/components/ParallaxBackground.tsx:93 | scroll 1.1 with hover 1.2 under the default bounds gives 1.16 |
| Parallax.RotationOf | apps/client/src/components/ParallaxBackground.tsx:117-122 | no tilt unless rotation is on in hover/both mode; otherwise 1.5° per unit of offset from the centre (X from y, Y from x), so the pointer can be read back from the tilt; bounded by ±0.75° inside the container and zero at the centre |
| Parallax.LeaveLevelsRotation | apps/client/src/components/ParallaxBackground.tsx:84-122 | after pointer leave, both rotations are 0 |
| ParallaxTraces.Step | apps/client/src/components/ParallaxBackground.tsx:51-87 | scroll and frame events leave the hover scale and pointer position untouched, and a scroll event alone does not change the scroll scale; pointer move and leave events leave the scroll scale, the `ticking` flag and the pending frame untouched |
| ParallaxTraces.StepKeepsInvariants | apps/client/src/components/ParallaxBackground.tsx:33-87 | every event keeps the throttle invariant and keeps both scales within the bounds |
| ParallaxTraces.RunKeepsInvariants | apps/client/src/components/ParallaxBackground.tsx:33-87 | every event sequence keeps the throttle invariant and the scale bounds |
| ParallaxTraces.FinalScaleInBounds | apps/client/src/components/ParallaxBackground.tsx:89-96 | with both scales in bounds, the final scale is in bounds in every mode |
| ParallaxTraces.MountedRunBounded | apps/client/src/components/ParallaxBackground.tsx:27-96 | from mounting on, whatever the events, at most one frame callback is pending and the rendered scale stays within [minScale, maxScale] |
| ParallaxTraces.ScrollModePointerStateFixed | apps/client/src/components/ParallaxBackground.tsx:69-87 | in "scroll" mode the hover scale stays at base and the pointer stays at the centre, whatever the events |
| Portfolio.FilterByCategory | apps/client/src/pages/Portfolio.tsx:79 | every kept item has the category; an item is kept if and only if it is in the input with that category; the result is no longer than the input |
| Portfolio.FilterMultiplicity | apps/client/src/pages/Portfolio.tsx:79 | each item of the category is kept as many times as it occurs in the input, and other items not at all |
| Portfolio.FilterIsSubsequence | apps/client/src/pages/Portfolio.tsx:79 | the filtered list is a subsequence of the input, so the original order is kept |
| Portfolio.FilterDistributes | apps/client/src/pages/Portfolio.tsx:79 | filtering a concatenation is the concatenation of the filtered parts |
| Portfolio.FilterIdempotent | apps/client/src/pages/Portfolio.tsx:79 | filtering twice by one category is filtering once |
| Portfolio.FilteredProjects | apps/client/src/pages/Portfolio.tsx:77-79 | "all" gives exactly the item list; any other filter gives only and all items of that category, drawn from the list |
| Portfolio.FilteredIsSubsequence | apps/client/src/pages/Portfolio.tsx:77-79 | whatever the filter, the shown items keep their original order |
| Portfolio.SubsequenceKeepsUniqueIds | apps/client/src/pages/Portfolio.tsx:179 | a subsequence of a list with unique ids has unique ids |
| Portfolio.HighlightExactlyOne | apps/client/src/pages/Portfolio.tsx:112-116 | with distinct filter ids, exactly one button is highlighted when the active filter is a listed id, and none otherwise |
| Portfolio.FiltersWellFormed | apps/client/src/pages/Portfolio.tsx:12-17 | the filter ids are distinct and the first is "all" |
| Portfolio.ProjectIdsUnique | apps/client/src/pages/Portfolio.tsx:19-75 | the item ids are unique |
| Portfolio.ProjectCategoriesListed | apps/client/src/pages/Portfolio.tsx:12-75 | every item's category is a filter id other than "all" |
| Portfolio.CategoryContents | apps/client/src/pages/Portfolio.tsx:19-79 | coffee shows items 1 and 3, pastries items 2 and 4, beverages items 5 and 6, each in list order |
| Portfolio.InitPage | apps/client/src/pages/Portfolio.tsx:9-10 | the page opens on the full list in grid view |
| Portfolio.ClickFilter | apps/client/src/pages/Portfolio.tsx:112 | a filter click makes that button's id active and leaves the view mode; afterwards exactly one button is highlighted |
| Portfolio.SetViewMode | apps/client/src/pages/Portfolio.tsx:131-139 | the view toggle sets the mode and leaves the active filter |
| Portfolio.ViewModeDoesNotFilter | apps/client/src/pages/Portfolio.tsx:77-139 | the shown items depend only on the active filter; toggling the view never changes them |
| Portfolio.VisibleKeysUnique | apps/client/src/pages/Portfolio.tsx:177-179 | the shown cards never repeat a key, whatever the filter |
| Contact.HandleInputChange | apps/client/src/pages/Contact.tsx:20-26 | the named field takes the new value and every other field keeps its value |
| Contact.ChangeToSameValueIsIdentity | apps/client/src/pages/Contact.tsx:20-26 | retyping a field's current value leaves the form unchanged |
| Contact.LastChangeWins | apps/client/src/pages/Contact.tsx:20-26 | two changes to one field amount to the last one |
| Contact.ChangesToDifferentFieldsCommute | apps/client/src/pages/Contact.tsx:20-26 | changes to different fields commute |
| Contact.InitPage | apps/client/src/pages/Contact.tsx:9-18 | all six fields are empty, and the page is neither submitting nor submitted |
| Contact.Render | apps/client/src/pages/Contact.tsx:84-327 | the confirmation card is shown exactly when submitted; otherwise the form's submit button is disabled exactly while submitting |
| Contact.HandleSubmit | apps/client/src/pages/Contact.tsx:28-33 | submit sets isSubmitting, starts one timer and leaves the form and the submitted flag |
| Contact.Complete | apps/client/src/pages/Contact.tsx:33-36 | when the timer fires, submitting ends and submitted begins; with no timer nothing happens |
| Contact.SendAnother | apps/client/src/pages/Contact.tsx:103 | "Send Another Message" clears only isSubmitted; the form data is kept |
| Contact.UiStep | apps/client/src/pages/Contact.tsx:84-324 | a submit press on a disabled button, or typing or submitting on the confirmation card, changes nothing; typing into the form changes that field only |
| Contact.UiStepKeepsInv | apps/client/src/pages/Contact.tsx:28-324 | every visitor action keeps "a timer runs exactly while submitting, and never submitting and submitted together" |
| Contact.RunUiKeepsInv | apps/client/src/pages/Contact.tsx:321-324 | whatever the visitor does, at most one submission is ever in flight |
| Contact.UngatedSubmitTwice | apps/client/src/pages/Contact.tsx:28-33 | the handler itself does not guard: two submits in a row would start two timers |
| Contact.SubmitRoundTrip | apps/client/src/pages/Contact.tsx:28-103 | submit, then the timer, then "Send Another Message": the page passes through "Sending..." and the confirmation card and returns to exactly the idle state it started from |

## Behaviour worth noting

- The throttle clears `ticking` after the scroll handler runs inside the frame callback. Within one frame the order does not matter, because the callback runs to completion.
- The scroll handler reads the geometry when the frame fires. Scroll events that arrive while a frame is pending change nothing; the geometry at frame time decides the scale.
- There is no fallback for degenerate geometry. A zero sum of viewport and container height, or a zero-size rectangle for pointer moves, is excluded by a precondition. A zero-height container at top 0 in a non-empty viewport gives progress 1 (`ZeroHeightAtTopIsFullProgress`).
- Leaving the container resets the hover scale to the base scale. A pointer move to the centre gives base + 0.15 before clamping, so the two differ (`LeaveDiffersFromCentreMove`).
- The ordering min ≤ base ≤ max is never checked. Results that depend on it say so in their preconditions (`ValidConfig`). Clamping with inverted bounds yields the lower bound.

## Left out

- Rendering: all JSX, styling, framer-motion animation, easing and transition parameters.
- IEEE-754 behaviour: NaN and Infinity from zero-size geometry, rounding, and the exact value of `Math.sqrt`. Numbers are `real`, and `sqrt` is any non-negative function.
- React's asynchronous, batched state updates. Each handler's `setState` calls are applied at once, in order.
- Listener registration and cleanup, and re-running the effect when props change. A new effect starts with a fresh `ticking`, and a frame callback still pending from the old effect is not cancelled. The configuration is fixed for the component's lifetime.
- Calls to `setState` after unmount, for example from a timer that fires after the contact page is left.
- Browser `required` validation of the contact form. The submit handler checks nothing.
- Implicit form submission: pressing Enter in a field submits only through the form's submit button. The model takes that button's `disabled` state as the only way in.
- Change events that name a field other than the six inputs. Every input on the page carries one of the six names, so `Field` is an enumeration.
- Static page content: contact details, the budget and project-type option lists, the header, the footer and the other pages.
- Parallax.HoverZoom: does not state a closed-form value for a given point, because `Math.sqrt` is a parameter. The value is pinned for any `sqrt` that squares back on the non-negative reals (`SquaresBack`), through `DistanceFromCentre` and `HoverZoomGivesDistance`. Its ordering by distance holds for any non-negative `sqrt` (`HoverZoomCloserIsLarger`, `HoverZoomPeakAtCentre`). Rounding of the real `Math.sqrt` is not modelled. `LeaveDiffersFromCentreMove` additionally assumes `sqrt(0) = 0` for the centre case.

=== FILE: contact.dfy ===
/** The contact page's form: six text fields, a submit step that pretends to
    send for two seconds, a confirmation view, and a way back to the form.
    The two-second timer is a separate completion step. */
module Contact {

  /** The form's fields, one per named input (the `name` attribute of each
      control). */
  datatype Field = Name | Email | Company | ProjectType | Budget | Message

  datatype FormData = FormData(
    name: string,
    email: string,
    company: string,
    project: string,
    budget: string,
    message: string)

  const EmptyForm: FormData := FormData("", "", "", "", "", "")

  function Get(f: FormData, field: Field): string {
    match field
    case Name => f.name
    case Email => f.email
    case Company => f.company
    case ProjectType => f.project
    case Budget => f.budget
    case Message => f.message
  }

  /** `handleInputChange`: copy the form and overwrite the one field the
      change event names. */
  function HandleInputChange(f: FormData, field: Field, value: string): (r: FormData)
    ensures Get(r, field) == value
    ensures forall other :: other != field ==> Get(r, other) == Get(f, other)
  {
    match field
    case Name => f.(name := value)
    case Email => f.(email := value)
    case Company => f.(company := value)
    case ProjectType => f.(project := value)
    case Budget => f.(budget := value)
    case Message => f.(message := value)
  }

  /** Two forms that agree on every field are the same form. */
  lemma FieldsDetermineForm(f: FormData, g: FormData)
    requires forall field :: Get(f, field) == Get(g, field)
    ensures f == g
  {
    assert Get(f, Name) == Get(g, Name) && Get(f, Email) == Get(g, Email);
    assert Get(f, Company) == Get(g, Company) && Get(f, ProjectType) == Get(g, ProjectType);
    assert Get(f, Budget) == Get(g, Budget) && Get(f, Message) == Get(g, Message);
  }

  /** Typing back a field's current value changes nothing. */
  lemma ChangeToSameValueIsIdentity(f: FormData, field: Field)
    ensures HandleInputChange(f, field, Get(f, field)) == f
  {
    FieldsDetermineForm(HandleInputChange(f, field, Get(f, field)), f);
  }

  /** Only the last change to a field counts. */
  lemma LastChangeWins(f: FormData, field: Field, v: string, w: string)
    ensures HandleInputChange(HandleInputChange(f, field, v), field, w)
         == HandleInputChange(f, field, w)
  {
    FieldsDetermineForm(HandleInputChange(HandleInputChange(f, field, v), field, w),
                        HandleInputChange(f, field, w));
  }

  /** Changes to different fields commute. */
  lemma ChangesToDifferentFieldsCommute(f: FormData, a: Field, v: string, b: Field, w: string)
    requires a != b
    ensures HandleInputChange(HandleInputChange(f, a, v), b, w)
         == HandleInputChange(HandleInputChange(f, b, w), a, v)
  {
    FieldsDetermineForm(HandleInputChange(HandleInputChange(f, a, v), b, w),
                        HandleInputChange(HandleInputChange(f, b, w), a, v));
  }

  // ---------------------------------------------------------------------------
  // Submission
  // ---------------------------------------------------------------------------

  /** The page's state: the form, the two flags, and `pendingTimers`, the
      number of two-second timers started by submissions that have not
      fired yet (browser state, not a variable of the component). */
  datatype PageState = PageState(
    form: FormData,
    isSubmitting: bool,
    isSubmitted: bool,
    pendingTimers: nat)

  function InitPage(): (s: PageState)
    ensures forall field :: Get(s.form, field) == ""
    ensures !s.isSubmitting && !s.isSubmitted && s.pendingTimers == 0
  {
    PageState(EmptyForm, false, false, 0)
  }

  /** What the page draws: the thank-you card, or the form with its submit
      button (disabled, and captioned "Sending...", while a submission is in
      progress). */
  datatype View =
    | Confirmation
    | FormView(submitDisabled: bool, submitCaption: string)

  function Render(s: PageState): (v: View)
    ensures v.Confirmation? <==> s.isSubmitted
    ensures v.FormView? ==> (v.submitDisabled <==> s.isSubmitting)
  {
    if s.isSubmitted then Confirmation
    else FormView(s.isSubmitting, if s.isSubmitting then "Sending..." else "Send Message")
  }

  /** `handleSubmit` up to its `await`: mark the page as submitting and
      start the timer. It checks nothing; the field validation is the
      browser's. */
  function HandleSubmit(s: PageState): (r: PageState)
    ensures r.isSubmitting && r.isSubmitted == s.isSubmitted
    ensures r.pendingTimers == s.pendingTimers + 1
    ensures r.form == s.form
  {
    s.(isSubmitting := true, pendingTimers := s.pendingTimers + 1)
  }

  /** The timer fires and `handleSubmit` resumes: no longer submitting,
      now submitted. With no timer running nothing happens. */
  function Complete(s: PageState): (r: PageState)
    ensures s.pendingTimers == 0 ==> r == s
    ensures s.pendingTimers > 0 ==>
              !r.isSubmitting && r.isSubmitted && r.pendingTimers == s.pendingTimers - 1
    ensures r.form == s.form
  {
    if s.pendingTimers == 0 then s
    else s.(isSubmitting := false, isSubmitted := true, pendingTimers := s.pendingTimers - 1)
  }

  /** "Send Another Message": clear the submitted flag and nothing else, so
      the form comes back holding what was sent. */
  function SendAnother(s: PageState): (r: PageState)
    ensures !r.isSubmitted
    ensures r.form == s.form && r.isSubmitting == s.isSubmitting
    ensures r.pendingTimers == s.pendingTimers
  {
    s.(isSubmitted := false)
  }

  /** What a visitor can do, each gated by what is on screen: type into a
      field or press the submit button (only while the form is shown, and the
      button only while it is enabled), press "Send Another Message" (only on
      the confirmation card), or let the timer fire. */
  datatype UiEvent =
    | Type(field: Field, value: string)
    | PressSubmit
    | TimerFires
    | PressSendAnother

  function UiStep(s: PageState, ev: UiEvent): (r: PageState)
    ensures Render(s).FormView? && Render(s).submitDisabled && ev.PressSubmit? ==> r == s
    ensures Render(s).Confirmation? && (ev.Type? || ev.PressSubmit?) ==> r == s
    ensures ev.Type? && Render(s).FormView? ==>
              r.form == HandleInputChange(s.form, ev.field, ev.value)
              && r.isSubmitting == s.isSubmitting && r.isSubmitted == s.isSubmitted
  {
    match ev
    case Type(field, value) =>
      if Render(s).FormView? then s.(form := HandleInputChange(s.form, field, value)) else s
    case PressSubmit =>
      var v := Render(s);
      if v.FormView? && !v.submitDisabled then HandleSubmit(s) else s
    case TimerFires => Complete(s)
    case PressSendAnother =>
      if Render(s).Confirmation? then SendAnother(s) else s
  }

  function RunUi(s: PageState, evs: seq<UiEvent>): PageState
    decreases |evs|
  {
    if |evs| == 0 then s else RunUi(UiStep(s, evs[0]), evs[1..])
  }

  /** The page's invariant: a timer is running exactly while the page is
      submitting, never more than one, and the page is never submitting and
      submitted at once. */
  predicate SubmissionInv(s: PageState) {
    s.pendingTimers == (if s.isSubmitting then 1 else 0)
    && !(s.isSubmitting && s.isSubmitted)
  }

  lemma UiStepKeepsInv(s: PageState, ev: UiEvent)
    requires SubmissionInv(s)
    ensures SubmissionInv(UiStep(s, ev))
  {
  }

  /** Whatever a visitor does, starting from a freshly loaded page, at most
      one submission is ever in flight: the disabled button stops a second. */
  lemma {:induction false} RunUiKeepsInv(s: PageState, evs: seq<UiEvent>)
    requires SubmissionInv(s)
    ensures SubmissionInv(RunUi(s, evs))
    ensures RunUi(s, evs).pendingTimers <= 1
    decreases |evs|
  {
    if |evs| > 0 {
      UiStepKeepsInv(s, evs[0]);
      RunUiKeepsInv(UiStep(s, evs[0]), evs[1..]);
    }
  }

  /** Without the disabled button, two submit events in a row would start
      two timers. */
  lemma UngatedSubmitTwice(s: PageState)
    ensures HandleSubmit(HandleSubmit(s)).pendingTimers == s.pendingTimers + 2
  {
  }

  /** A full round: submit from an idle form, let the timer fire, press
      "Send Another Message". The page is back to an idle form holding the
      same data it sent. */
  lemma SubmitRoundTrip(s: PageState)
    requires SubmissionInv(s) && !s.isSubmitting && !s.isSubmitted
    ensures var s1 := UiStep(s, PressSubmit);
            s1.isSubmitting && !s1.isSubmitted && Render(s1) == FormView(true, "Sending...")
    ensures var s2 := UiStep(UiStep(s, PressSubmit), TimerFires);
            !s2.isSubmitting && s2.isSubmitted && Render(s2) == Confirmation
    ensures UiStep(UiStep(UiStep(s, PressSubmit), TimerFires), PressSendAnother) == s
  {
  }
}

=== FILE: parallax.dfy ===
/** The parallax background's transform engine: a scale driven by how far the
    container has scrolled through the viewport, a second scale driven by the
    pointer's distance from the container's centre, the frame throttle on
    scroll handling, and the two outputs the rendering layer reads (the final
    scale and the rotation pair). Numbers are `real`; the browser's geometry
    queries arrive as parameters. */
module Parallax {
  import opened Wrappers

  // ---------------------------------------------------------------------------
  // Configuration
  // ---------------------------------------------------------------------------

  /** The three animation modes the component's props name. The engine
      compares the prop with `===`, so any other string reaches the default
      branch of the final-scale computation. */
  const ScrollMode: string := "scroll"
  const HoverMode: string := "hover"
  const BothMode: string := "both"

  /** The component's props that drive the transform (children and class name
      are rendering concerns). */
  datatype Config = Config(
    zoomRange: real,
    sensitivity: real,
    animationType: string,
    baseScale: real,
    maxScale: real,
    minScale: real,
    enableRotation: bool)

  /** The defaults the component declares for omitted props. */
  function DefaultConfig(): (c: Config)
    ensures c.animationType == BothMode && c.enableRotation
    ensures c.minScale < c.baseScale < c.maxScale
    ensures c.zoomRange * c.sensitivity > 0.0
  {
    Config(0.2, 0.6, BothMode, 1.0, 1.4, 0.8, true)
  }

  /** The pointer is tracked only in these modes. */
  predicate TracksPointer(c: Config) {
    c.animationType == HoverMode || c.animationType == BothMode
  }

  /** The bounds ordering the configuration is expected to respect. The
      component never checks it; the properties below say which results
      depend on it. */
  predicate ValidConfig(c: Config) {
    c.minScale <= c.baseScale <= c.maxScale
  }

  // ---------------------------------------------------------------------------
  // State
  // ---------------------------------------------------------------------------

  /** A point in the container's normalised coordinates: (0,0) is the top-left
      corner and (1,1) the bottom-right one. */
  datatype Point = Point(x: real, y: real)

  const Centre: Point := Point(0.5, 0.5)

  /** A bounding client rectangle as the browser reports it. */
  datatype Rect = Rect(left: real, top: real, width: real, height: real)

  /** What the scroll handler reads: the viewport height and the container's
      rectangle. */
  datatype ScrollGeometry = ScrollGeometry(windowHeight: real, rect: Rect)

  /** The engine's state: the two React state scales, the pointer position,
      the throttle's `ticking` flag, and `pendingFrames`, the number of frame
      callbacks requested from the browser that have not run yet (browser
      state, not a variable of the component). */
  datatype Engine = Engine(
    scrollScale: real,
    hoverScale: real,
    mousePos: Point,
    ticking: bool,
    pendingFrames: nat)

  /** The state of a freshly mounted component, before its first scroll read. */
  function Init(c: Config): (e: Engine)
    ensures e.scrollScale == c.baseScale && e.hoverScale == c.baseScale
    ensures e.mousePos == Centre
    ensures !e.ticking && e.pendingFrames == 0
  {
    Engine(c.baseScale, c.baseScale, Centre, false, 0)
  }

  // ---------------------------------------------------------------------------
  // Clamping
  // ---------------------------------------------------------------------------

  function Max(a: real, b: real): real {
    if a >= b then a else b
  }

  function Min(a: real, b: real): real {
    if a <= b then a else b
  }

  /** `Math.max(lo, Math.min(hi, v))`: the one clamping idiom the component
      uses everywhere. The lower bound wins when the bounds are inverted. */
  function Clamp(lo: real, hi: real, v: real): (r: real)
    ensures lo <= r
    ensures lo <= hi ==> r <= hi
    ensures hi < lo ==> r == lo
    ensures lo <= v <= hi ==> r == v
    ensures v < lo ==> r == lo
    ensures lo <= hi < v ==> r == hi
  {
    Max(lo, Min(hi, v))
  }

  /** Clamping keeps order: a larger input never gives a smaller output. */
  lemma ClampMonotone(lo: real, hi: real, v: real, w: real)
    requires v <= w
    ensures Clamp(lo, hi, v) <= Clamp(lo, hi, w)
  {
  }

  // ---------------------------------------------------------------------------
  // Scroll handling
  // ---------------------------------------------------------------------------

  /** The scroll handler's geometry has a non-zero denominator. The component
      has no guard here: with a zero sum it would divide by zero. */
  predicate ScrollGeometryOk(g: ScrollGeometry) {
    g.windowHeight + g.rect.height > 0.0
  }

  /** How far the container has travelled through the viewport, clamped to
      [0, 1]: 0 while it is still below the fold, 1 once it has left at the
      top. */
  function ScrollProgress(g: ScrollGeometry): (p: real)
    requires ScrollGeometryOk(g)
    ensures 0.0 <= p <= 1.0
  {
    Clamp(0.0, 1.0, (g.windowHeight - g.rect.top) / (g.windowHeight + g.rect.height))
  }

  /** Progress is 0 while the container's top is at or below the bottom of
      the viewport, and 1 once its bottom edge is at or above the top. */
  lemma ScrollProgressEnds(g: ScrollGeometry)
    requires ScrollGeometryOk(g)
    ensures g.rect.top >= g.windowHeight ==> ScrollProgress(g) == 0.0
    ensures g.rect.top + g.rect.height <= 0.0 ==> ScrollProgress(g) == 1.0
  {
    var n := g.windowHeight - g.rect.top;
    var d := g.windowHeight + g.rect.height;
    var raw := n / d;
    assert raw * d == n;
    if g.rect.top >= g.windowHeight {
      assert raw <= 0.0;
    }
    if g.rect.top + g.rect.height <= 0.0 {
      assert n >= d;
      assert raw >= 1.0;
    }
  }

  /** Between the two ends progress is the share of the container's travel
      already covered: times the whole travel (viewport height plus container
      height) it gives back the distance the top has risen above the fold. */
  lemma ProgressInterior(g: ScrollGeometry)
    requires ScrollGeometryOk(g)
    requires g.rect.top <= g.windowHeight && 0.0 <= g.rect.top + g.rect.height
    ensures ScrollProgress(g) * (g.windowHeight + g.rect.height) == g.windowHeight - g.rect.top
  {
    UnitFraction(g.windowHeight - g.rect.top, g.windowHeight + g.rect.height);
  }

  /** Scrolling down moves the container up (its top decreases), and progress
      never goes backwards when that happens. */
  lemma ScrollProgressMonotone(windowHeight: real, r1: Rect, r2: Rect)
    requires r1.height == r2.height && r1.top <= r2.top
    requires ScrollGeometryOk(ScrollGeometry(windowHeight, r1))
    ensures ScrollProgress(ScrollGeometry(windowHeight, r2))
         <= ScrollProgress(ScrollGeometry(windowHeight, r1))
  {
    var d := windowHeight + r1.height;
    var raw1 := (windowHeight - r1.top) / d;
    var raw2 := (windowHeight - r2.top) / d;
    assert raw2 <= raw1 by {
      assert raw1 - raw2 == (r2.top - r1.top) / d;
    }
    ClampMonotone(0.0, 1.0, raw2, raw1);
  }

  /** A container of zero height sitting at the very top of a non-empty
      viewport counts as fully scrolled through (progress 1), because the
      component divides `innerHeight` by `innerHeight`. */
  lemma ZeroHeightAtTopIsFullProgress(windowHeight: real, left: real, width: real)
    requires windowHeight > 0.0
    ensures ScrollProgress(ScrollGeometry(windowHeight, Rect(left, 0.0, width, 0.0))) == 1.0
  {
  }

  /** The scroll-derived scale for a given progress: the base scale plus the
      zoom the progress earns, clamped into the configured bounds. */
  function ScrollZoom(c: Config, progress: real): (s: real)
    ensures c.minScale <= s
    ensures c.minScale <= c.maxScale ==> s <= c.maxScale
    ensures c.maxScale < c.minScale ==> s == c.minScale
    ensures c.minScale <= c.baseScale + progress * c.zoomRange * c.sensitivity <= c.maxScale
            ==> s == c.baseScale + progress * c.zoomRange * c.sensitivity
  {
    Clamp(c.minScale, c.maxScale, c.baseScale + progress * c.zoomRange * c.sensitivity)
  }

  lemma ProductNonNegative(a: real, b: real)
    requires 0.0 <= a && 0.0 <= b
    ensures 0.0 <= a * b
  {
  }

  /** With a non-negative zoom factor, more progress never means less zoom. */
  lemma ScrollZoomMonotone(c: Config, p: real, q: real)
    requires p <= q
    requires c.zoomRange * c.sensitivity >= 0.0
    ensures ScrollZoom(c, p) <= ScrollZoom(c, q)
  {
    var k := c.zoomRange * c.sensitivity;
    assert p * c.zoomRange * c.sensitivity == p * k;
    assert q * c.zoomRange * c.sensitivity == q * k;
    ProductNonNegative(q - p, k);
    assert q * k - p * k == (q - p) * k;
    ClampMonotone(c.minScale, c.maxScale, c.baseScale + p * k, c.baseScale + q * k);
  }

  /** `handleScroll`: with the container attached, recompute the
      scroll-derived scale from the current geometry; with no container,
      do nothing. It touches nothing but `scrollScale`. */
  function HandleScroll(c: Config, e: Engine, g: Option<ScrollGeometry>): (r: Engine)
    requires g.Some? ==> ScrollGeometryOk(g.value)
    ensures g.None? ==> r == e
    ensures g.Some? ==> r.scrollScale == ScrollZoom(c, ScrollProgress(g.value))
    ensures r.hoverScale == e.hoverScale && r.mousePos == e.mousePos
    ensures r.ticking == e.ticking && r.pendingFrames == e.pendingFrames
  {
    match g
    case None => e
    case Some(geom) => e.(scrollScale := ScrollZoom(c, ScrollProgress(geom)))
  }

  /** The state right after mounting: the effect runs the scroll handler once
      without waiting for a scroll event. */
  function Mount(c: Config, g: Option<ScrollGeometry>): (e: Engine)
    requires g.Some? ==> ScrollGeometryOk(g.value)
    ensures e.hoverScale == c.baseScale && e.mousePos == Centre
    ensures !e.ticking && e.pendingFrames == 0
    ensures g.None? ==> e.scrollScale == c.baseScale
    ensures g.Some? ==> e.scrollScale == ScrollZoom(c, ScrollProgress(g.value))
  {
    HandleScroll(c, Init(c), g)
  }

  // ---------------------------------------------------------------------------
  // Frame throttle
  // ---------------------------------------------------------------------------

  /** `throttledScroll`, the listener attached to window scroll events: when
      no frame callback is outstanding, request one and set `ticking`;
      otherwise drop the event. No scale changes here. */
  function ScrollDispatch(e: Engine): (r: Engine)
    ensures e.ticking ==> r == e
    ensures !e.ticking ==> r.ticking && r.pendingFrames == e.pendingFrames + 1
    ensures r.scrollScale == e.scrollScale && r.hoverScale == e.hoverScale
    ensures r.mousePos == e.mousePos
  {
    if !e.ticking then e.(pendingFrames := e.pendingFrames + 1, ticking := true) else e
  }

  /** The browser runs one requested frame callback: it calls the scroll
      handler (reading the geometry of that moment) and then clears
      `ticking`. With no callback outstanding nothing runs. */
  function FrameFires(c: Config, e: Engine, g: Option<ScrollGeometry>): (r: Engine)
    requires g.Some? ==> ScrollGeometryOk(g.value)
    ensures e.pendingFrames == 0 ==> r == e
    ensures e.pendingFrames > 0 ==> !r.ticking && r.pendingFrames == e.pendingFrames - 1
    ensures e.pendingFrames > 0 ==> r.scrollScale == HandleScroll(c, e, g).scrollScale
    ensures r.hoverScale == e.hoverScale && r.mousePos == e.mousePos
  {
    if e.pendingFrames == 0 then e
    else HandleScroll(c, e, g).(ticking := false, pendingFrames := e.pendingFrames - 1)
  }

  /** The throttle's invariant: `ticking` is set exactly while one frame
      callback is outstanding, and never more than one is. */
  predicate ThrottleInv(e: Engine) {
    e.pendingFrames <= 1 && (e.ticking <==> e.pendingFrames == 1)
  }

  lemma ScrollDispatchKeepsThrottleInv(e: Engine)
    requires ThrottleInv(e)
    ensures ThrottleInv(ScrollDispatch(e))
    ensures ScrollDispatch(e).pendingFrames == 1
  {
  }

  lemma FrameFiresKeepsThrottleInv(c: Config, e: Engine, g: Option<ScrollGeometry>)
    requires ThrottleInv(e)
    requires g.Some? ==> ScrollGeometryOk(g.value)
    ensures ThrottleInv(FrameFires(c, e, g))
    ensures FrameFires(c, e, g).pendingFrames == 0
  {
  }

  /** A burst of `n` scroll events inside one frame interval followed by the
      frame: however many events arrive, the frame callback, and with it the
      scroll handler's geometry read, runs exactly once. `framesQueued` is the
      number of frame callbacks the burst left pending. */
  method ScrollBurst(c: Config, e: Engine, n: nat, g: Option<ScrollGeometry>)
    returns (r: Engine, framesQueued: nat)
    requires ThrottleInv(e) && !e.ticking
    requires g.Some? ==> ScrollGeometryOk(g.value)
    ensures n == 0 ==> framesQueued == 0 && r == e
    ensures framesQueued == (if n == 0 then 0 else 1)
    ensures n > 0 && g.Some? ==> r.scrollScale == ScrollZoom(c, ScrollProgress(g.value))
    ensures n > 0 && g.None? ==> r.scrollScale == e.scrollScale
    ensures !r.ticking && r.pendingFrames == 0
    ensures r.hoverScale == e.hoverScale && r.mousePos == e.mousePos
  {
    var cur := e;
    var i := 0;
    while i < n
      invariant 0 <= i <= n
      invariant i == 0 ==> cur == e
      invariant i > 0 ==> cur.ticking && cur.pendingFrames == 1
      invariant cur.scrollScale == e.scrollScale && cur.hoverScale == e.hoverScale
      invariant cur.mousePos == e.mousePos
    {
      cur := ScrollDispatch(cur);
      i := i + 1;
    }
    framesQueued := cur.pendingFrames;
    r := FrameFires(c, cur, g);
  }

  // ---------------------------------------------------------------------------
  // Pointer handling
  // ---------------------------------------------------------------------------

  /** `Math.sqrt` is left abstract: any function that is non-negative on
      non-negative input. */
  ghost predicate NonNegativeRoot(sqrt: real -> real) {
    forall v :: 0.0 <= v ==> 0.0 <= sqrt(v)
  }

  /** `sqrt` squares back to its argument on the non-negative reals, as
      `Math.sqrt` does up to rounding. */
  ghost predicate SquaresBack(sqrt: real -> real) {
    forall v :: 0.0 <= v ==> sqrt(v) * sqrt(v) == v
  }

  /** The pointer handler divides by the rectangle's size and has no guard. */
  predicate RectOk(rect: Rect) {
    rect.width > 0.0 && rect.height > 0.0
  }

  /** A quotient by a positive denominator lies in [0, 1] exactly when the
      numerator lies between 0 and the denominator. */
  lemma UnitFraction(n: real, d: real)
    requires d > 0.0
    ensures 0.0 <= n <= d <==> 0.0 <= n / d <= 1.0
  {
    assert (n / d) * d == n;
  }

  /** Client coordinates relative to the container, as fractions of its size.
      Nothing clamps the result: a pointer outside the rectangle gives a
      point outside the unit square. */
  function Normalise(rect: Rect, clientX: real, clientY: real): (p: Point)
    requires RectOk(rect)
    ensures rect.left + p.x * rect.width == clientX
    ensures rect.top + p.y * rect.height == clientY
    ensures rect.left <= clientX <= rect.left + rect.width <==> 0.0 <= p.x <= 1.0
    ensures rect.top <= clientY <= rect.top + rect.height <==> 0.0 <= p.y <= 1.0
  {
    UnitFraction(clientX - rect.left, rect.width);
    UnitFraction(clientY - rect.top, rect.height);
    Point((clientX - rect.left) / rect.width, (clientY - rect.top) / rect.height)
  }

  lemma SquareNonNegative(a: real)
    ensures 0.0 <= a * a
  {
    if a < 0.0 {
      assert a * a == (-a) * (-a);
    }
  }

  /** The Euclidean distance of a normalised point from the centre. */
  function DistanceFromCentre(sqrt: real -> real, p: Point): (d: real)
    requires NonNegativeRoot(sqrt)
    ensures 0.0 <= d
    ensures SquaresBack(sqrt) ==> d * d == (p.x - 0.5) * (p.x - 0.5) + (p.y - 0.5) * (p.y - 0.5)
  {
    var dx, dy := p.x - 0.5, p.y - 0.5;
    SquareNonNegative(dx);
    SquareNonNegative(dy);
    sqrt(dx * dx + dy * dy)
  }

  /** The hover zoom before clamping: the base scale plus up to 0.15, less
      the further the pointer is from the centre. */
  function RawHoverZoom(c: Config, sqrt: real -> real, p: Point): (z: real)
    requires NonNegativeRoot(sqrt)
    ensures z <= c.baseScale + 0.15
  {
    c.baseScale + 0.15 * (1.0 - DistanceFromCentre(sqrt, p))
  }

  /** The hover-derived scale: the raw hover zoom clamped into the bounds,
      whatever the point, even one outside the unit square. */
  function HoverZoom(c: Config, sqrt: real -> real, p: Point): (s: real)
    requires NonNegativeRoot(sqrt)
    ensures c.minScale <= s
    ensures c.minScale <= c.maxScale ==> s <= c.maxScale
    ensures c.minScale <= c.baseScale + 0.15 ==> s <= c.baseScale + 0.15
  {
    Clamp(c.minScale, c.maxScale, RawHoverZoom(c, sqrt, p))
  }

  /** The hover zoom encodes the pointer's distance from the centre: the
      shortfall from base + 0.15, divided by 0.15, is a non-negative number
      whose square is the squared Euclidean distance of the point from
      (0.5, 0.5). */
  lemma HoverZoomGivesDistance(c: Config, sqrt: real -> real, p: Point)
    requires NonNegativeRoot(sqrt)
    requires SquaresBack(sqrt)
    ensures var d := (c.baseScale + 0.15 - RawHoverZoom(c, sqrt, p)) / 0.15;
            0.0 <= d && d * d == (p.x - 0.5) * (p.x - 0.5) + (p.y - 0.5) * (p.y - 0.5)
  {
    var dx, dy := p.x - 0.5, p.y - 0.5;
    SquareNonNegative(dx);
    SquareNonNegative(dy);
    assert (c.baseScale + 0.15 - RawHoverZoom(c, sqrt, p)) / 0.15 == DistanceFromCentre(sqrt, p);
  }

  /** A pointer at least as close to the centre as another gets at least as
      much hover zoom, before and after clamping. */
  lemma HoverZoomCloserIsLarger(c: Config, sqrt: real -> real, p: Point, q: Point)
    requires NonNegativeRoot(sqrt)
    requires DistanceFromCentre(sqrt, p) <= DistanceFromCentre(sqrt, q)
    ensures RawHoverZoom(c, sqrt, q) <= RawHoverZoom(c, sqrt, p)
    ensures HoverZoom(c, sqrt, q) <= HoverZoom(c, sqrt, p)
  {
    ClampMonotone(c.minScale, c.maxScale, RawHoverZoom(c, sqrt, q), RawHoverZoom(c, sqrt, p));
  }

  /** The full extra 0.15 is reached exactly at zero distance from the
      centre, and a pointer farther away gets strictly less. */
  lemma HoverZoomPeakAtCentre(c: Config, sqrt: real -> real, p: Point, q: Point)
    requires NonNegativeRoot(sqrt)
    ensures RawHoverZoom(c, sqrt, p) == c.baseScale + 0.15 <==> DistanceFromCentre(sqrt, p) == 0.0
    ensures DistanceFromCentre(sqrt, p) < DistanceFromCentre(sqrt, q)
            ==> RawHoverZoom(c, sqrt, q) < RawHoverZoom(c, sqrt, p)
  {
  }

  /** `handleMouseMove`: only with the container attached and in a mode that
      tracks the pointer, store the normalised position and the new hover
      scale. Otherwise the state is left exactly as it was. */
  function PointerMove(c: Config, sqrt: real -> real, e: Engine,
                       rect: Option<Rect>, clientX: real, clientY: real): (r: Engine)
    requires NonNegativeRoot(sqrt)
    requires rect.Some? ==> RectOk(rect.value)
    ensures !TracksPointer(c) || rect.None? ==> r == e
    ensures TracksPointer(c) && rect.Some? ==>
              r.mousePos == Normalise(rect.value, clientX, clientY)
              && r.hoverScale == HoverZoom(c, sqrt, r.mousePos)
    ensures c.minScale <= c.maxScale && c.minScale <= e.hoverScale <= c.maxScale
            ==> c.minScale <= r.hoverScale <= c.maxScale
    ensures r.scrollScale == e.scrollScale
    ensures r.ticking == e.ticking && r.pendingFrames == e.pendingFrames
  {
    if rect.Some? && TracksPointer(c) then
      var p := Normalise(rect.value, clientX, clientY);
      e.(mousePos := p, hoverScale := HoverZoom(c, sqrt, p))
    else
      e
  }

  /** In scroll-only mode a pointer move changes nothing at all. */
  lemma ScrollModeIgnoresPointer(c: Config, sqrt: real -> real, e: Engine,
                                 rect: Option<Rect>, clientX: real, clientY: real)
    requires c.animationType == ScrollMode
    requires NonNegativeRoot(sqrt)
    requires rect.Some? ==> RectOk(rect.value)
    ensures PointerMove(c, sqrt, e, rect, clientX, clientY) == e
    ensures FinalScale(c, PointerMove(c, sqrt, e, rect, clientX, clientY)) == FinalScale(c, e)
  {
  }

  /** `handleMouseLeave`: in every mode, put the hover scale back to the base
      scale and the pointer back to the centre. */
  function PointerLeave(c: Config, e: Engine): (r: Engine)
    ensures r.hoverScale == Init(c).hoverScale && r.mousePos == Init(c).mousePos
    ensures r.scrollScale == e.scrollScale
    ensures r.ticking == e.ticking && r.pendingFrames == e.pendingFrames
  {
    e.(hoverScale := c.baseScale, mousePos := Centre)
  }

  /** Leaving is not the same as moving to the centre. A move to the centre
      (of any rectangle) earns the full 0.15 bonus, clamped; leaving restores
      the bare base scale. They differ whenever the base lies strictly below
      the upper bound. */
  lemma LeaveDiffersFromCentreMove(c: Config, sqrt: real -> real, e: Engine, rect: Rect)
    requires TracksPointer(c)
    requires NonNegativeRoot(sqrt) && sqrt(0.0) == 0.0
    requires RectOk(rect)
    requires c.minScale <= c.baseScale < c.maxScale
    ensures var moved := PointerMove(c, sqrt, e, Some(rect),
                                     rect.left + rect.width / 2.0, rect.top + rect.height / 2.0);
            moved.mousePos == Centre
            && moved.hoverScale == Min(c.maxScale, c.baseScale + 0.15)
            && moved.hoverScale != PointerLeave(c, e).hoverScale
  {
    var cx := rect.left + rect.width / 2.0;
    var cy := rect.top + rect.height / 2.0;
    var p := Normalise(rect, cx, cy);
    assert p.x == 0.5 by {
      assert (cx - rect.left) / rect.width == (rect.width / 2.0) / rect.width;
    }
    assert p.y == 0.5 by {
      assert (cy - rect.top) / rect.height == (rect.height / 2.0) / rect.height;
    }
    assert p == Centre;
    assert DistanceFromCentre(sqrt, p) == 0.0;
  }

  // ---------------------------------------------------------------------------
  // Outputs
  // ---------------------------------------------------------------------------

  /** `getFinalScale`: the scale handed to the renderer. Scroll mode shows the
      scroll scale, hover mode the hover scale, "both" blends 30% of the
      hover offset into the scroll scale and clamps, and any other mode
      shows the base scale. */
  function FinalScale(c: Config, e: Engine): (s: real)
    ensures c.animationType == ScrollMode ==> s == e.scrollScale
    ensures c.animationType == HoverMode ==> s == e.hoverScale
    ensures c.animationType == BothMode ==> c.minScale <= s
    ensures c.animationType == BothMode && c.minScale <= c.maxScale ==> s <= c.maxScale
    ensures (c.animationType == BothMode
             && c.minScale <= e.scrollScale + (e.hoverScale - c.baseScale) * 0.3 <= c.maxScale)
            ==> s == e.scrollScale + (e.hoverScale - c.baseScale) * 0.3
    ensures !(c.animationType in {ScrollMode, HoverMode, BothMode}) ==> s == c.baseScale
  {
    if c.animationType == ScrollMode then e.scrollScale
    else if c.animationType == HoverMode then e.hoverScale
    else if c.animationType == BothMode then
      Clamp(c.minScale, c.maxScale, e.scrollScale + (e.hoverScale - c.baseScale) * 0.3)
    else c.baseScale
  }

  /** In "both" mode the hover scale pulls the final scale along: a larger
      hover scale never gives a smaller final scale, and within the bounds a
      rise of the hover scale by `d` raises the final scale by 0.3·d. */
  lemma BlendMonotoneInHover(c: Config, e: Engine, h: real)
    requires c.animationType == BothMode
    requires e.hoverScale <= h
    ensures FinalScale(c, e) <= FinalScale(c, e.(hoverScale := h))
    ensures c.minScale <= e.scrollScale + (e.hoverScale - c.baseScale) * 0.3
            && e.scrollScale + (h - c.baseScale) * 0.3 <= c.maxScale
            ==> FinalScale(c, e.(hoverScale := h)) - FinalScale(c, e) == (h - e.hoverScale) * 0.3
  {
    var lo := e.scrollScale + (e.hoverScale - c.baseScale) * 0.3;
    var hi := e.scrollScale + (h - c.baseScale) * 0.3;
    assert lo <= hi;
    ClampMonotone(c.minScale, c.maxScale, lo, hi);
  }

  /** The worked example of the blend: scroll scale 1.1, hover scale 1.2 and
      the default bounds give 1.16. */
  lemma BlendExample()
    ensures FinalScale(DefaultConfig(), Engine(1.1, 1.2, Centre, false, 0)) == 1.16
  {
  }

  /** The rotation pair handed to the renderer, in degrees. */
  datatype Rotation = Rotation(rotateX: real, rotateY: real)

  const NoRotation: Rotation := Rotation(0.0, 0.0)

  predicate Rotates(c: Config) {
    c.enableRotation && TracksPointer(c)
  }

  /** Tilt follows the pointer: 1.5 degrees per unit of offset from the
      centre, X from the vertical offset and Y from the horizontal one, so
      the pointer position can be read back from the tilt. No tilt unless
      rotation is enabled in a pointer-tracking mode. */
  function RotationOf(c: Config, e: Engine): (r: Rotation)
    ensures !Rotates(c) ==> r == NoRotation
    ensures e.mousePos == Centre ==> r == NoRotation
    ensures Rotates(c) ==> Centre.y + r.rotateX / 1.5 == e.mousePos.y
    ensures Rotates(c) ==> Centre.x + r.rotateY / 1.5 == e.mousePos.x
    ensures 0.0 <= e.mousePos.x <= 1.0 && 0.0 <= e.mousePos.y <= 1.0 ==>
              -0.75 <= r.rotateX <= 0.75 && -0.75 <= r.rotateY <= 0.75
  {
    if Rotates(c) then
      Rotation((e.mousePos.y - 0.5) * 1.5, (e.mousePos.x - 0.5) * 1.5)
    else
      NoRotation
  }

  /** After the pointer leaves, the background stands level again. */
  lemma LeaveLevelsRotation(c: Config, e: Engine)
    ensures RotationOf(c, PointerLeave(c, e)) == NoRotation
  {
  }
}

=== FILE: parallax_traces.dfy ===
/** Sequences of browser events applied to the parallax engine, and the
    invariants every such sequence keeps: at most one frame callback
    outstanding, both scales inside the bounds, and a final scale inside the
    bounds. */
module ParallaxTraces {
  import opened Wrappers
  import opened Parallax

  /** The events the component reacts to. A window scroll event reaches the
      throttle; a frame event is the browser running a requested callback,
      with the geometry of that moment; pointer events carry the client
      coordinates and the container's rectangle. */
  datatype Event =
    | ScrollEvent
    | FrameEvent(geometry: Option<ScrollGeometry>)
    | MoveEvent(rect: Option<Rect>, clientX: real, clientY: real)
    | LeaveEvent

  /** The event's geometry has the non-zero denominators the handlers divide by. */
  predicate EventOk(ev: Event) {
    match ev
    case FrameEvent(g) => g.Some? ==> ScrollGeometryOk(g.value)
    case MoveEvent(rect, _, _) => rect.Some? ==> RectOk(rect.value)
    case _ => true
  }

  predicate AllOk(evs: seq<Event>) {
    forall i :: 0 <= i < |evs| ==> EventOk(evs[i])
  }

  /** One event: scroll and frame events drive only the scroll side of the
      state, pointer events only the pointer side. */
  function Step(c: Config, sqrt: real -> real, e: Engine, ev: Event): (r: Engine)
    requires NonNegativeRoot(sqrt)
    requires EventOk(ev)
    ensures ev.ScrollEvent? || ev.FrameEvent? ==>
              r.hoverScale == e.hoverScale && r.mousePos == e.mousePos
    ensures ev.MoveEvent? || ev.LeaveEvent? ==>
              r.scrollScale == e.scrollScale && r.ticking == e.ticking
              && r.pendingFrames == e.pendingFrames
    ensures ev.ScrollEvent? ==> r.scrollScale == e.scrollScale
  {
    match ev
    case ScrollEvent => ScrollDispatch(e)
    case FrameEvent(g) => FrameFires(c, e, g)
    case MoveEvent(rect, x, y) => PointerMove(c, sqrt, e, rect, x, y)
    case LeaveEvent => PointerLeave(c, e)
  }

  /** Apply the events in order. */
  function Run(c: Config, sqrt: real -> real, e: Engine, evs: seq<Event>): (r: Engine)
    requires NonNegativeRoot(sqrt)
    requires AllOk(evs)
    decreases |evs|
  {
    if |evs| == 0 then e
    else Run(c, sqrt, Step(c, sqrt, e, evs[0]), evs[1..])
  }

  /** Both scales lie within the configured bounds. */
  predicate ScalesInBounds(c: Config, e: Engine) {
    c.minScale <= e.scrollScale <= c.maxScale && c.minScale <= e.hoverScale <= c.maxScale
  }

  lemma StepKeepsInvariants(c: Config, sqrt: real -> real, e: Engine, ev: Event)
    requires NonNegativeRoot(sqrt) && EventOk(ev)
    requires ValidConfig(c)
    requires ThrottleInv(e) && ScalesInBounds(c, e)
    ensures ThrottleInv(Step(c, sqrt, e, ev)) && ScalesInBounds(c, Step(c, sqrt, e, ev))
  {
    match ev
    case ScrollEvent =>
    case FrameEvent(g) =>
    case MoveEvent(rect, x, y) =>
    case LeaveEvent =>
  }

  /** Every sequence of events keeps the throttle invariant (never two frame
      callbacks outstanding) and keeps both scales within the bounds. */
  lemma {:induction false} RunKeepsInvariants(c: Config, sqrt: real -> real, e: Engine, evs: seq<Event>)
    requires NonNegativeRoot(sqrt) && AllOk(evs)
    requires ValidConfig(c)
    requires ThrottleInv(e) && ScalesInBounds(c, e)
    ensures ThrottleInv(Run(c, sqrt, e, evs)) && ScalesInBounds(c, Run(c, sqrt, e, evs))
    decreases |evs|
  {
    if |evs| > 0 {
      assert EventOk(evs[0]);
      StepKeepsInvariants(c, sqrt, e, evs[0]);
      assert AllOk(evs[1..]) by {
        forall i | 0 <= i < |evs[1..]|
          ensures EventOk(evs[1..][i])
        {
          assert evs[1..][i] == evs[i + 1];
        }
      }
      RunKeepsInvariants(c, sqrt, Step(c, sqrt, e, evs[0]), evs[1..]);
    }
  }

  /** Whenever both scales are in bounds, so is the final scale, in every mode. */
  lemma FinalScaleInBounds(c: Config, e: Engine)
    requires ValidConfig(c) && ScalesInBounds(c, e)
    ensures c.minScale <= FinalScale(c, e) <= c.maxScale
  {
  }

  /** From mounting onwards, whatever events arrive, at most one frame
      callback is outstanding and the scale handed to the renderer stays
      within the bounds. */
  lemma MountedRunBounded(c: Config, sqrt: real -> real, g: Option<ScrollGeometry>, evs: seq<Event>)
    requires NonNegativeRoot(sqrt) && AllOk(evs)
    requires g.Some? ==> ScrollGeometryOk(g.value)
    requires ValidConfig(c)
    ensures Run(c, sqrt, Mount(c, g), evs).pendingFrames <= 1
    ensures c.minScale <= FinalScale(c, Run(c, sqrt, Mount(c, g), evs)) <= c.maxScale
  {
    RunKeepsInvariants(c, sqrt, Mount(c, g), evs);
    FinalScaleInBounds(c, Run(c, sqrt, Mount(c, g), evs));
  }

  /** In scroll-only mode the pointer state never moves off its initial
      values, whatever events arrive. */
  lemma {:induction false} ScrollModePointerStateFixed(c: Config, sqrt: real -> real, e: Engine, evs: seq<Event>)
    requires NonNegativeRoot(sqrt) && AllOk(evs)
    requires c.animationType == ScrollMode
    requires e.hoverScale == c.baseScale && e.mousePos == Centre
    ensures Run(c, sqrt, e, evs).hoverScale == c.baseScale
    ensures Run(c, sqrt, e, evs).mousePos == Centre
    decreases |evs|
  {
    if |evs| > 0 {
      assert EventOk(evs[0]);
      var next := Step(c, sqrt, e, evs[0]);
      assert next.hoverScale == c.baseScale && next.mousePos == Centre by {
        match evs[0]
        case ScrollEvent =>
        case FrameEvent(g) =>
        case MoveEvent(rect, x, y) =>
          ScrollModeIgnoresPointer(c, sqrt, e, rect, x, y);
        case LeaveEvent =>
      }
      assert AllOk(evs[1..]) by {
        forall i | 0 <= i < |evs[1..]|
          ensures EventOk(evs[1..][i])
        {
          assert evs[1..][i] == evs[i + 1];
        }
      }
      ScrollModePointerStateFixed(c, sqrt, next, evs[1..]);
    }
  }
}

=== FILE: portfolio.dfy ===
/** The menu page: a fixed list of items, a row of category filter buttons,
    and a grid/list view toggle. The list shown is the item list filtered by
    the active category, or the whole list for "all". */
module Portfolio {

  /** A filter button: the category id it selects and its caption. */
  datatype FilterButton = FilterButton(id: string, caption: string)

  /** A menu item. `featured` is absent on most items of the page's list,
      which reads as false. */
  datatype Project = Project(
    id: nat,
    title: string,
    category: string,
    description: string,
    image: string,
    tags: seq<string>,
    year: string,
    featured: bool)

  /** The filter id that shows every item. */
  const AllFilter: string := "all"

  const Filters: seq<FilterButton> := [
    FilterButton("all", "All Items"),
    FilterButton("coffee", "Coffee"),
    FilterButton("pastries", "Pastries"),
    FilterButton("beverages", "Beverages")
  ]

  const Projects: seq<Project> := [
    Project(1, "Signature Espresso Blend", "coffee",
      "Our house blend featuring notes of dark chocolate and caramel, roasted to perfection for the ultimate espresso experience.",
      "ES", ["Espresso", "House Blend", "Signature"], "2023", true),
    Project(2, "Vintage Croissant", "pastries",
      "Buttery, flaky croissants made with traditional French techniques and served warm from our vintage oven.",
      "CR", ["Pastry", "French", "Buttery"], "2023", false),
    Project(3, "Artisan Latte Art", "coffee",
      "Beautiful handcrafted latte art featuring vintage-inspired designs that make every cup a work of art.",
      "LA", ["Latte Art", "Handcrafted", "Design"], "2023", false),
    Project(4, "Homemade Scones", "pastries",
      "Traditional English scones with seasonal jams and clotted cream, perfect with afternoon tea.",
      "SC", ["Scones", "Traditional", "Afternoon Tea"], "2022", false),
    Project(5, "Cold Brew Collection", "beverages",
      "Smooth, refreshing cold brew coffee with vintage-inspired flavor profiles and modern brewing techniques.",
      "CB", ["Cold Brew", "Refreshing", "Modern"], "2022", false),
    Project(6, "Vintage Tea Selection", "beverages",
      "Curated collection of premium teas from around the world, served in vintage china with traditional ceremony.",
      "TS", ["Tea", "Premium", "Vintage"], "2022", false)
  ]

  // ---------------------------------------------------------------------------
  // Filtering
  // ---------------------------------------------------------------------------

  /** The items of `ps` whose category is `category`, in their original order
      (`Array.prototype.filter` with a category test). */
  function FilterByCategory(ps: seq<Project>, category: string): (r: seq<Project>)
    ensures |r| <= |ps|
    ensures forall i :: 0 <= i < |r| ==> r[i].category == category
    ensures forall p :: p in r <==> p in ps && p.category == category
    decreases |ps|
  {
    if |ps| == 0 then []
    else
      var rest := FilterByCategory(ps[1..], category);
      assert ps == [ps[0]] + ps[1..];
      if ps[0].category == category then [ps[0]] + rest else rest
  }

  /** The filter keeps every item of the category as many times as it
      occurs, and no other item. */
  lemma {:induction false} FilterMultiplicity(ps: seq<Project>, category: string, p: Project)
    ensures multiset(FilterByCategory(ps, category))[p]
         == if p.category == category then multiset(ps)[p] else 0
    decreases |ps|
  {
    if |ps| > 0 {
      FilterMultiplicity(ps[1..], category, p);
      assert ps == [ps[0]] + ps[1..];
      assert multiset(ps) == multiset([ps[0]]) + multiset(ps[1..]);
      var rest := FilterByCategory(ps[1..], category);
      if ps[0].category == category {
        assert FilterByCategory(ps, category) == [ps[0]] + rest;
        assert multiset(FilterByCategory(ps, category)) == multiset([ps[0]]) + multiset(rest);
      } else {
        assert FilterByCategory(ps, category) == rest;
        assert multiset([ps[0]])[p] == 0 || p.category != category;
      }
    }
  }

  /** `a` is `b` with some elements removed and the rest kept in order. */
  ghost predicate SubsequenceOf<T>(a: seq<T>, b: seq<T>)
    decreases |b|
  {
    if |a| == 0 then true
    else if |b| == 0 then false
    else (a[0] == b[0] && SubsequenceOf(a[1..], b[1..])) || SubsequenceOf(a, b[1..])
  }

  /** The filter only drops items; it never reorders them. */
  lemma {:induction false} FilterIsSubsequence(ps: seq<Project>, category: string)
    ensures SubsequenceOf(FilterByCategory(ps, category), ps)
    decreases |ps|
  {
    if |ps| > 0 {
      FilterIsSubsequence(ps[1..], category);
    }
  }

  /** Filtering a concatenation filters each part and concatenates, so the
      relative order of any two kept items is the order they had. */
  lemma {:induction false} FilterDistributes(a: seq<Project>, b: seq<Project>, category: string)
    ensures FilterByCategory(a + b, category)
         == FilterByCategory(a, category) + FilterByCategory(b, category)
    decreases |a|
  {
    if |a| == 0 {
      assert a + b == b;
    } else {
      assert (a + b)[1..] == a[1..] + b;
      FilterDistributes(a[1..], b, category);
    }
  }

  /** Filtering twice by the same category is filtering once. */
  lemma {:induction false} FilterIdempotent(ps: seq<Project>, category: string)
    ensures FilterByCategory(FilterByCategory(ps, category), category)
         == FilterByCategory(ps, category)
    decreases |ps|
  {
    if |ps| > 0 {
      FilterIdempotent(ps[1..], category);
      if ps[0].category == category {
        var rest := FilterByCategory(ps[1..], category);
        assert ([ps[0]] + rest)[1..] == rest;
      }
    }
  }

  /** `filteredProjects`: the whole list for "all", otherwise the items of
      the active category. */
  function FilteredProjects(activeFilter: string, ps: seq<Project>): (r: seq<Project>)
    ensures activeFilter == AllFilter ==> r == ps
    ensures activeFilter != AllFilter ==>
              (forall i :: 0 <= i < |r| ==> r[i].category == activeFilter)
              && (forall p :: p in ps && p.category == activeFilter ==> p in r)
    ensures |r| <= |ps|
    ensures forall p :: p in r ==> p in ps
  {
    if activeFilter == AllFilter then ps else FilterByCategory(ps, activeFilter)
  }

  /** Whatever the filter, the list shown keeps the items' original order. */
  lemma FilteredIsSubsequence(activeFilter: string, ps: seq<Project>)
    ensures SubsequenceOf(FilteredProjects(activeFilter, ps), ps)
  {
    if activeFilter == AllFilter {
      SubsequenceReflexive(ps);
    } else {
      FilterIsSubsequence(ps, activeFilter);
    }
  }

  lemma {:induction false} SubsequenceReflexive<T>(s: seq<T>)
    ensures SubsequenceOf(s, s)
    decreases |s|
  {
    if |s| > 0 {
      SubsequenceReflexive(s[1..]);
    }
  }

  // ---------------------------------------------------------------------------
  // Identities
  // ---------------------------------------------------------------------------

  /** Pairwise distinct ids: the React list keys of the item cards. */
  predicate UniqueIds(ps: seq<Project>) {
    forall i, j :: 0 <= i < j < |ps| ==> ps[i].id != ps[j].id
  }

  /** A subsequence of a list with unique ids has unique ids too, so the
      filtered list never repeats a card key. */
  lemma {:induction false} SubsequenceKeepsUniqueIds(a: seq<Project>, b: seq<Project>)
    requires SubsequenceOf(a, b) && UniqueIds(b)
    ensures UniqueIds(a)
    decreases |b|
  {
    if |a| > 0 {
      assert |b| > 0;
      assert UniqueIds(b[1..]) by {
        forall i, j | 0 <= i < j < |b[1..]|
          ensures b[1..][i].id != b[1..][j].id
        {
          assert b[1..][i] == b[i + 1] && b[1..][j] == b[j + 1];
        }
      }
      if a[0] == b[0] && SubsequenceOf(a[1..], b[1..]) {
        SubsequenceKeepsUniqueIds(a[1..], b[1..]);
        SubsequenceElements(a[1..], b[1..]);
        forall i, j | 0 <= i < j < |a|
          ensures a[i].id != a[j].id
        {
          if i == 0 {
            assert a[j] == a[1..][j - 1];
            var k :| 0 <= k < |b[1..]| && b[1..][k] == a[j];
            assert b[k + 1] == a[j];
          } else {
            assert a[i] == a[1..][i - 1] && a[j] == a[1..][j - 1];
          }
        }
      } else {
        SubsequenceKeepsUniqueIds(a, b[1..]);
      }
    }
  }

  /** Every element of a subsequence is an element of the whole. */
  lemma {:induction false} SubsequenceElements<T>(a: seq<T>, b: seq<T>)
    requires SubsequenceOf(a, b)
    ensures forall i :: 0 <= i < |a| ==> exists k :: 0 <= k < |b| && b[k] == a[i]
    decreases |b|
  {
    if |a| > 0 {
      if a[0] == b[0] && SubsequenceOf(a[1..], b[1..]) {
        SubsequenceElements(a[1..], b[1..]);
        forall i | 0 <= i < |a|
          ensures exists k :: 0 <= k < |b| && b[k] == a[i]
        {
          if i == 0 {
            assert b[0] == a[0];
          } else {
            assert a[i] == a[1..][i - 1];
            var k :| 0 <= k < |b[1..]| && b[1..][k] == a[i];
            assert b[k + 1] == a[i];
          }
        }
      } else {
        SubsequenceElements(a, b[1..]);
        forall i | 0 <= i < |a|
          ensures exists k :: 0 <= k < |b| && b[k] == a[i]
        {
          var k :| 0 <= k < |b[1..]| && b[1..][k] == a[i];
          assert b[k + 1] == a[i];
        }
      }
    }
  }

  /** The number of buttons whose id equals the active filter: the buttons
      drawn highlighted. */
  function HighlightedCount(buttons: seq<FilterButton>, activeFilter: string): nat
    decreases |buttons|
  {
    if |buttons| == 0 then 0
    else (if buttons[0].id == activeFilter then 1 else 0) + HighlightedCount(buttons[1..], activeFilter)
  }

  predicate DistinctFilterIds(buttons: seq<FilterButton>) {
    forall i, j :: 0 <= i < j < |buttons| ==> buttons[i].id != buttons[j].id
  }

  /** With distinct ids, exactly one button is highlighted when the active
      filter is one of the listed ids, and none otherwise. */
  lemma {:induction false} HighlightExactlyOne(buttons: seq<FilterButton>, activeFilter: string)
    requires DistinctFilterIds(buttons)
    ensures (exists i :: 0 <= i < |buttons| && buttons[i].id == activeFilter)
            ==> HighlightedCount(buttons, activeFilter) == 1
    ensures (forall i :: 0 <= i < |buttons| ==> buttons[i].id != activeFilter)
            ==> HighlightedCount(buttons, activeFilter) == 0
    decreases |buttons|
  {
    if |buttons| > 0 {
      var tail := buttons[1..];
      assert DistinctFilterIds(tail) by {
        forall i, j | 0 <= i < j < |tail|
          ensures tail[i].id != tail[j].id
        {
          assert tail[i] == buttons[i + 1] && tail[j] == buttons[j + 1];
        }
      }
      HighlightExactlyOne(tail, activeFilter);
      if buttons[0].id == activeFilter {
        assert forall i :: 0 <= i < |tail| ==> tail[i].id != activeFilter by {
          forall i | 0 <= i < |tail|
            ensures tail[i].id != activeFilter
          {
            assert tail[i] == buttons[i + 1];
          }
        }
      } else {
        if exists i :: 0 <= i < |buttons| && buttons[i].id == activeFilter {
          var i :| 0 <= i < |buttons| && buttons[i].id == activeFilter;
          assert tail[i - 1] == buttons[i];
        }
        if forall i :: 0 <= i < |buttons| ==> buttons[i].id != activeFilter {
          assert forall i :: 0 <= i < |tail| ==> tail[i].id != activeFilter by {
            forall i | 0 <= i < |tail|
              ensures tail[i].id != activeFilter
            {
              assert tail[i] == buttons[i + 1];
            }
          }
        }
      }
    }
  }

  /** The filter ids are distinct and the first one is "all". */
  lemma FiltersWellFormed()
    ensures DistinctFilterIds(Filters) && Filters[0].id == AllFilter
  {
  }

  /** Item ids are unique. */
  lemma ProjectIdsUnique()
    ensures UniqueIds(Projects)
  {
  }

  /** `category` is the id of one of the filter buttons other than "all". */
  predicate IsCategoryFilter(category: string) {
    exists j :: 1 <= j < |Filters| && Filters[j].id == category
  }

  /** Every item's category is one of the filter ids other than "all". */
  lemma ProjectCategoriesListed()
    ensures forall i :: 0 <= i < |Projects| ==> IsCategoryFilter(Projects[i].category)
  {
    assert Filters[1].id == "coffee" && Filters[2].id == "pastries" && Filters[3].id == "beverages";
    assert IsCategoryFilter("coffee") && IsCategoryFilter("pastries") && IsCategoryFilter("beverages");
  }

  lemma FilterCons(p: Project, ps: seq<Project>, category: string)
    ensures FilterByCategory([p] + ps, category)
         == (if p.category == category then [p] else []) + FilterByCategory(ps, category)
  {
    assert ([p] + ps)[1..] == ps;
  }

  /** The items of `ps` from position `k` on whose category is `category`,
      walking the positions upwards. */
  function Picked(ps: seq<Project>, category: string, k: nat): seq<Project>
    requires k <= |ps|
    decreases |ps| - k
  {
    if k == |ps| then []
    else (if ps[k].category == category then [ps[k]] else []) + Picked(ps, category, k + 1)
  }

  lemma {:induction false} FilterFrom(ps: seq<Project>, category: string, k: nat)
    requires k <= |ps|
    ensures FilterByCategory(ps[k..], category) == Picked(ps, category, k)
    decreases |ps| - k
  {
    if k < |ps| {
      assert ps[k..] == [ps[k]] + ps[k + 1..];
      FilterCons(ps[k], ps[k + 1..], category);
      FilterFrom(ps, category, k + 1);
    }
  }

  /** Each category filter of the page shows exactly two items, in list
      order. */
  lemma CategoryContents(category: string)
    ensures category == "coffee" ==>
              FilteredProjects(category, Projects) == [Projects[0], Projects[2]]
    ensures category == "pastries" ==>
              FilteredProjects(category, Projects) == [Projects[1], Projects[3]]
    ensures category == "beverages" ==>
              FilteredProjects(category, Projects) == [Projects[4], Projects[5]]
  {
    if category == "coffee" {
      FilterWhole(category);
      PickedCoffee();
    } else if category == "pastries" {
      FilterWhole(category);
      PickedPastries();
    } else if category == "beverages" {
      FilterWhole(category);
      PickedBeverages();
    }
  }

  lemma FilterWhole(category: string)
    requires category != AllFilter
    ensures FilteredProjects(category, Projects) == Picked(Projects, category, 0)
  {
    assert Projects[0..] == Projects;
    FilterFrom(Projects, category, 0);
  }

  lemma PickedCoffee()
    ensures Picked(Projects, "coffee", 0) == [Projects[0], Projects[2]]
  {
    assert Picked(Projects, "coffee", 4) == [];
    assert Picked(Projects, "coffee", 2) == [Projects[2]];
  }

  lemma PickedPastries()
    ensures Picked(Projects, "pastries", 0) == [Projects[1], Projects[3]]
  {
    assert Picked(Projects, "pastries", 4) == [];
    assert Picked(Projects, "pastries", 2) == [Projects[3]];
  }

  lemma PickedBeverages()
    ensures Picked(Projects, "beverages", 0) == [Projects[4], Projects[5]]
  {
    assert Picked(Projects, "beverages", 4) == [Projects[4], Projects[5]];
    assert Picked(Projects, "beverages", 2) == [Projects[4], Projects[5]];
  }

  // ---------------------------------------------------------------------------
  // Page state
  // ---------------------------------------------------------------------------

  datatype ViewMode = Grid | List

  /** The page's two pieces of React state. */
  datatype PageState = PageState(activeFilter: string, viewMode: ViewMode)

  function InitPage(): (s: PageState)
    ensures FilteredProjects(s.activeFilter, Projects) == Projects
    ensures s.viewMode == Grid
  {
    PageState(AllFilter, Grid)
  }

  /** The items on screen. */
  function Visible(s: PageState): seq<Project> {
    FilteredProjects(s.activeFilter, Projects)
  }

  /** A click on filter button `b` makes its id the active filter and leaves
      the view mode alone; afterwards that button, and only it, is
      highlighted. */
  function ClickFilter(s: PageState, b: FilterButton): (r: PageState)
    requires b in Filters
    ensures r.activeFilter == b.id && r.viewMode == s.viewMode
    ensures HighlightedCount(Filters, r.activeFilter) == 1
  {
    FiltersWellFormed();
    assert exists i :: 0 <= i < |Filters| && Filters[i].id == b.id;
    HighlightExactlyOne(Filters, b.id);
    s.(activeFilter := b.id)
  }

  /** The view toggle sets the mode and nothing else. */
  function SetViewMode(s: PageState, m: ViewMode): (r: PageState)
    ensures r.viewMode == m && r.activeFilter == s.activeFilter
  {
    s.(viewMode := m)
  }

  /** Toggling the view never changes which items are shown. */
  lemma ViewModeDoesNotFilter(s: PageState, m: ViewMode)
    ensures Visible(SetViewMode(s, m)) == Visible(s)
  {
  }

  /** The cards on screen never repeat a key, whatever the filter. */
  lemma VisibleKeysUnique(s: PageState)
    ensures UniqueIds(Visible(s))
  {
    ProjectIdsUnique();
    FilteredIsSubsequence(s.activeFilter, Projects);
    SubsequenceKeepsUniqueIds(Visible(s), Projects);
  }
}

=== FILE: wrappers.dfy ===
/** An optional value: `None` stands for a React ref that is not attached yet
    (`containerRef.current` is null), `Some` for the element it points at. */
module Wrappers {

  datatype Option<+T> = None | Some(value: T)
}
